=== FILE: README.md ===
# art-slideshow core, modelled in Dafny

The model covers the part of the art slideshow viewer (`main.rs`) that has real logic and no GUI:

- **Separable box blur.** `fast_box_blur` averages R, G and B over a window of `2*radius+1` pixels. Sample positions are clamped to the image edges. A horizontal pass runs first, then a vertical pass over a snapshot of its result, and alpha is never written. `process_image` applies the blur three times, with radius 10, to the 640×360 backdrop.
- **Main-image size.** `process_image` limits the longer side of the main image to 2048.
- **Folder scan.** An entry is kept only when its lower-cased extension is `jpg`, `jpeg`, `png`, `bmp` or `gif`. It is given:
  - the metadata from its `.json` sidecar when that parses;
  - all three fields "Unknown" when the sidecar exists but cannot be read or parsed;
  - the file stem as title, with "Unknown" artist and year, when there is no sidecar.
- **Slideshow controller.** This is the state of `ArtSlideshowApp` and the non-rendering half of `update`. Each frame runs three phases: bootstrap, then poll, then advance. `load_next_in_background` dispatches one background job per prefetch. That job fills the shared handoff slot (`next_processed`).

Modules:

- `BoxBlur` (`box_blur.dfy`):
  - images are rows of RGBA pixels with explicit width and height;
  - the reference definitions are `HorizontalBlur`, `VerticalBlur`, `BoxBlur` and `BlurPasses`;
  - the source's nested loops are methods proved equal to those definitions;
  - the sums use `u32` accumulators proved not to wrap;
  - `byte` results are proved to fit `u8`.
- `Pipeline` (`pipeline.dfy`): the constants of `process_image`, the main-image size, and the three-pass backdrop loop.
- `Artworks` (`artworks.dfy`):
  - `Path::extension` and `Path::file_stem` of a file name;
  - the extension filter;
  - the metadata fallback;
  - the scan over directory entries.

  The filesystem and the JSON parser are abstracted. Each entry carries its name, whether its sidecar exists, and the parse result.
- `Slideshow` (`slideshow.dfy`):
  - the controller state as a datatype;
  - `Tick(now)` as bootstrap, then poll, then advance;
  - the background thread as explicit `Finish(k)` events, and as a `TickInterrupted(now, ks)` frame when the jobs `ks` finish while the advance is between its two lock regions;
  - `process_image` as an abstract function `process: nat -> Option<P>`.
- `Wrappers` and `Arith`: `Option`, and multiplication and division facts used by the proofs.

Behaviours of the code worth noting:

- A sidecar that exists but does not parse gives "Unknown" as title. It does not give the file stem.
- The main-image size is truncated by `as u32`. It is not rounded.
- Bootstrap does not restart the slide timer. `last_change` is set only in `new` and on an advance.
- The code can have more than one prefetch job in flight (see Findings).

## Model

| member | source | states |
|---|---|---|
| `BoxBlur.Clamp` | main.rs:154 | the clamped coordinate lies in [lo, hi], equals v when v is already inside, and is the point of [lo, hi] nearest to v |
| `BoxBlur.SampleIndex` | main.rs:179-181 | every clamped sample index is a valid index of the row or column it reads (`[0, len-1]`) |
| `BoxBlur.WindowSumBetween` | main.rs:153-160 | a window sum lies between (window size) × smallest sample and (window size) × largest sample |
| `BoxBlur.Mean` | main.rs:162-165 | each written channel, `sum / count` floored, lies between the smallest and largest input value of its window, so the `as u8` cast never truncates |
| `BoxBlur.RowWindowSums` | main.rs:148-160 | the horizontal inner loop yields `count == 2*radius+1 > 0`, so the later division is never by zero, and R/G/B sums equal the clamped window sums without overflowing u32 |
| `BoxBlur.ColumnWindowSums` | main.rs:174-186 | the vertical inner loop yields `count == 2*radius+1 > 0` and R/G/B sums equal the clamped window sums down the column of the snapshot, without overflowing u32 |
| `BoxBlur.BlurRowPixel` | main.rs:162-165 | the pixel written by the horizontal pass is the reference per-pixel blur: floored means in R/G/B, input alpha |
| `BoxBlur.BlurColumnPixel` | main.rs:188-191 | the pixel written by the vertical pass is the reference per-pixel blur of the snapshot's column |
| `BoxBlur.HorizontalPass` | main.rs:143-167 | the horizontal nested loops compute exactly the reference horizontal blur |
| `BoxBlur.VerticalPass` | main.rs:169-193 | the vertical nested loops, reading only the snapshot, compute exactly the reference vertical blur |
| `BoxBlur.HorizontalBlur` | main.rs:145-167 | the horizontal pass keeps width, height and every pixel's alpha |
| `BoxBlur.VerticalBlur` | main.rs:171-193 | the vertical pass keeps width, height and every pixel's alpha |
| `BoxBlur.BoxBlur` | main.rs:141-196 | a whole blur keeps width, height and every alpha value |
| `BoxBlur.FastBoxBlur` | main.rs:141-196 | `fast_box_blur` returns the reference separable blur, with the input's width, height and alpha |
| `BoxBlur.BlurPasses` | main.rs:119-121 | any number of successive blurs keeps width, height and alpha |
| `BoxBlur.ConstantWindow` | main.rs:153-160 | over a line of one colour, every clamped window's minimum and maximum are that colour |
| `BoxBlur.ConstantLineFixed` | main.rs:153-165 | one 1-D pass over a single-colour line returns the line unchanged, edges included |
| `BoxBlur.UniformFixedPoint` | main.rs:141-196 | a uniform-colour image is a fixed point of `fast_box_blur` |
| `BoxBlur.UniformFixedUnderPasses` | main.rs:119-121 | a uniform-colour image is unchanged by any number of blur passes |
| `Pipeline.MainImageSize` | main.rs:99-108 | size is unchanged when the longer side is at most 2048; otherwise the longer side becomes 2048, and each side is truncated (not rounded) from side × 2048 / longer side, never growing |
| `Pipeline.ScaledSide` | main.rs:107-108 | a side scaled by 2048 / (longer side) is at most 2048 and at most itself, and is the floor of the exact product |
| `Pipeline.BlurBackdrop` | main.rs:118-121 | the 3-iteration loop yields three successive radius-10 blurs, each reading the previous output, keeping dimensions and alpha |
| `Pipeline.UniformBackdropUnchanged` | main.rs:118-121 | a uniform backdrop comes out of the 3-pass loop unchanged |
| `Artworks.LastDot` | main.rs:54 | the position found is a dot with no dot after it, and None means the name has no dot |
| `Artworks.LastDotIs` | main.rs:54 | a dot with no later dot is the one `LastDot` finds |
| `Artworks.Extension` | main.rs:54 | an extension is a dot-free suffix of the name, preceded by a dot and leaving at least one character before that dot; a name without a dot, and "..", has none; every other name with a dot after its first character has one, so the extension is exactly the text after the last dot |
| `Artworks.FileStem` | main.rs:70 | the stem is a prefix of the name and is empty only for the empty name |
| `Artworks.LastDotOfLower` | main.rs:54-55 | lower-casing a name leaves its last dot where it was |
| `Artworks.IsImageName` | main.rs:54-56 | an accepted name has a real extension of three or four characters, and a name without a dot is rejected |
| `Artworks.AcceptsEveryImageName` | main.rs:54-56 | for every non-empty stem and every dot-free extension that lower-cases to one of the five, stem + "." + extension has that extension and is accepted |
| `Artworks.IsImageNameIffSplit` | main.rs:54-56 | a name is accepted exactly when it is a non-empty stem, a dot, and a dot-free extension that lower-cases to `jpg`, `jpeg`, `png`, `bmp` or `gif` |
| `Artworks.IsImageNameIgnoresCase` | main.rs:54-56 | for every name, the name is accepted exactly when its lower-cased form is |
| `Artworks.StemAndExtensionSplitName` | main.rs:70 | a name with an extension is exactly non-empty stem + "." + extension, and the extension has no dot; without an extension the stem is the whole name |
| `Artworks.ImageNameExamples` | main.rs:54-56 | on fixed names: "Starry Night.JPG" is kept, uses the last dot ("a.b.png" kept, "photo.png.json" dropped), and a leading dot or no dot gives no extension |
| `Artworks.LoadMetadata` | main.rs:59-77 | no sidecar gives {stem, "Unknown", "Unknown"}; a sidecar that cannot be read or parsed gives {"Unknown", "Unknown", "Unknown"}; a parsed sidecar is returned verbatim |
| `Artworks.StemUsedOnlyWithoutSidecar` | main.rs:59-77 | when a sidecar exists the metadata never depends on the file name; without one, different stems give different metadata |
| `Artworks.EntryArtwork` | main.rs:57-79 | the artwork keeps the entry's path; without a sidecar its title is the stem, so title + "." + extension gives back the file name; a parsed sidecar is used as is; an unusable one gives title "Unknown" |
| `Artworks.ScanFolder` | main.rs:52-82 | the scan keeps at most as many artworks as there are entries |
| `Artworks.ScanFolderOnlyImages` | main.rs:54-56 | every kept artwork's name has one of the five image extensions |
| `Artworks.ScanFolderKeepsEveryImage` | main.rs:52-79 | every entry with an image extension is kept, with the metadata chosen for it |
| `Artworks.ScanFolderOnlyFromEntries` | main.rs:52-79 | every kept artwork is the artwork of some directory entry |
| `Artworks.ScanFolderConcat` | main.rs:52-82 | the scan keeps directory order: scanning a + b gives scan(a) followed by scan(b) |
| `Slideshow.Init` | main.rs:84-93 | the initial state: index 0, nothing displayed, empty slot, not loading, no job, timer at `now`, 10 s slide duration |
| `Slideshow.LoadNextInBackground` | main.rs:198-207 | no state change when already loading or `n <= 1`; otherwise loading is set and exactly one job, for `(current_index + 1) % n`, is added; nothing else changes |
| `Slideshow.Bootstrap` | main.rs:254-265 | with an image displayed nothing changes; otherwise the display becomes `process(current)` and a prefetch of the next artwork is dispatched exactly when the guard allows; index, slot and timer are untouched |
| `Slideshow.Poll` | main.rs:267-273 | the loading mark survives exactly while the slot is empty; nothing else changes |
| `Slideshow.Advance` | main.rs:275-300 | built from `TakeSlot` (main.rs:277-285) and `ClearSlot` (main.rs:293-298); when the time is up and the slot is full: index + 1 mod n, displayed := old slot, timer := now, slot emptied even if a job finished between the two lock regions, loading re-marked when there is more than one artwork; otherwise nothing changes |
| `Slideshow.Tick` | main.rs:245-300 | index stays in [0, n); with no artworks nothing happens; advances exactly when elapsed ≥ duration and the slot is full: index + 1 mod n, displayed := old slot, slot emptied, timer := now, newest job is the new next index; otherwise index, timer and slot unchanged and no job finishes; bootstrap fills the display with `process(current)` |
| `Slideshow.FinishJob` | main.rs:209-214 | a job finishing changes only the slot and the job list, and a job that is not running changes nothing |
| `Slideshow.FinishJobsAreFinishEvents` | main.rs:209-214 | jobs finishing inside an advance have exactly the effect of the same completions as `Finish` events, one after another |
| `Slideshow.FinishJobs` | main.rs:209-214 | several jobs finishing one after another change only the slot and the job list, never lengthen the list, and change nothing when no job is running |
| `Slideshow.EarlyFinishIsExtraFrame` | main.rs:254-298 | with an empty slot, a job dispatched by a frame's bootstrap and finishing before that frame's poll gives the same state as two frames at the same time with the completion between them |
| `Slideshow.InterruptedAdvanceLosesResults` | main.rs:277-295 | however many jobs finish between the advance's two lock regions, the frame ends exactly as an uninterrupted one apart from the job list, which is no longer, and the slot ends empty |
| `Slideshow.AdvanceLosesOneResult` | main.rs:277-295 | one job finishing inside the advance leaves the job list at its own position, and nothing else differs from the uninterrupted advance |
| `Slideshow.InterruptedAdvanceLosesResult` | main.rs:277-295 | a job finishing between the advance's read (277-285) and its clear (293-295) ends the frame exactly as an uninterrupted one, minus that job: its result is lost, whereas finishing after the frame would leave it in the slot |
| `Slideshow.Complete` | main.rs:209-214 | a finishing job leaves the job list; on success its result overwrites the slot, on failure the slot is untouched; nothing else changes |
| `Slideshow.Step` | main.rs:245-300 | every tick (and, through `Complete` at main.rs:209-214, every background completion) keeps `current_index` in [0, n) |
| `Slideshow.Run` | main.rs:245-300 | `current_index` stays in [0, n) across any sequence of ticks and completions |
| `Slideshow.SingleArtworkStaysPut` | main.rs:199-201 | with one artwork no job is ever dispatched and the index stays 0, for any run |
| `Slideshow.InitConsistent` | main.rs:84-93 | the initial state satisfies the handoff invariant |
| `Slideshow.SlotAwareBootstrapConsistent` | main.rs:254-265 | bootstrap under the corrected guard keeps the handoff invariant |
| `Slideshow.PollConsistent` | main.rs:267-273 | poll keeps the handoff invariant |
| `Slideshow.SlotAwareAdvanceConsistent` | main.rs:275-300 | advance under the corrected guard keeps the handoff invariant: the displayed result is the new index's |
| `Slideshow.CompleteConsistent` | main.rs:209-214 | a job finishing keeps the handoff invariant: the slot then holds the next artwork's result |
| `Slideshow.SlotAwareStepConsistent` | main.rs:245-300 | every tick or completion under the corrected guard keeps the handoff invariant |
| `Slideshow.SlotAwareRunConsistent` | main.rs:198-300 | under the corrected guard, every run keeps at most one job in flight and the displayed image matches `current_index` |
| `Slideshow.GuardsAgreeWhileDisplaying` | main.rs:255 | once an image is displayed, the original and corrected guards make identical steps and an image stays displayed |
| `Slideshow.AsWrittenFirstFrameConsistent` | main.rs:254-265 | when the first artwork decodes, the first frame of the code as written displays it and leaves the handoff consistent |
| `Slideshow.AsWrittenConsistentWhenFirstDecodes` | main.rs:198-300 | when the first artwork decodes, every run of the code as written keeps the handoff invariant |
| `Slideshow.AsWrittenConsistentWhileDisplaying` | main.rs:198-300 | from a consistent state that already displays an image, the code as written keeps the handoff invariant forever |
| `Slideshow.AsWrittenReachesWaiting` | main.rs:255-273 | with artwork 0 undecodable, two frames and one completion leave the result for artwork 1 in the slot with loading cleared |
| `Slideshow.AsWrittenDuplicatesPrefetch` | main.rs:255-273 | the code as written then has two jobs for artwork 1 in flight at once |
| `Slideshow.AsWrittenStaleJobRefillsSlot` | main.rs:276-298 | after the advance to artwork 1, a stale job for artwork 1 refills the slot |
| `Slideshow.AsWrittenShowsStaleImage` | main.rs:276-298 | the next advance sets the index to 2 while displaying artwork 1 |
| `Slideshow.AsWrittenInterruptedAdvanceDropsPrefetch` | main.rs:277-295 | if instead the job for artwork 2 finishes inside that advance, index 2 still shows artwork 1, the slot ends empty and artwork 2's result is gone |
| `Slideshow.AsWrittenTwoResultsLostInOneGap` | main.rs:277-295 | with three stale jobs for artwork 1 and artwork 2 waiting, two of them finishing inside the t=20 s advance leave index 2 on artwork 2, the slot empty and one job still running |
| `Slideshow.ThreeArtworkScenario` | main.rs:254-298 | with three artworks, the first frame shows 0 and prefetches 1; at 5 s nothing changes; at 10 s with the prefetch ready the slideshow moves to 1 and prefetches 2; without it, it holds on 0 and the timer is not reset; a single artwork dispatches nothing |

## Left out

- Thread spawning, `Arc<Mutex<..>>` locking and interleavings (main.rs:205-214, 269, 277, 293). A background job is an entry in `jobs`. Completions between frames are explicit `Finish(k)` events, one per job. Completions between the advance's two lock regions (main.rs:285-293) are the list `ks` of a `TickInterrupted(now, ks)` frame, and the second lock region erases their results. A job that was already running when a frame started and finishes elsewhere inside that frame is modelled as a `Finish` just before or just after the frame. A job dispatched by the frame's own bootstrap (main.rs:264) can finish before that frame's poll or advance. With an empty slot, `Slideshow.EarlyFinishIsExtraFrame` proves such a frame equal to two `TickAt` frames at the same time with the `Finish` between them. The remaining placements are argued from the source, not proved: the frame reads the slot only in poll and in the advance's first lock region.
- Image decoding, Lanczos3 `resize_exact` and `resize_to_fill`, and `to_rgba8` (main.rs:97, 109, 115-116). These are library code. The backdrop is an arbitrary pixel grid given to `Pipeline.BlurBackdrop`. `process_image` as a whole is the abstract `process` of `Slideshow`.
- The darkening `(v as f32 * 0.6) as u8` (main.rs:124-128). It is floating-point arithmetic.
- Pipeline.MainImageSize: computes `side * 2048 / longer` in exact arithmetic. The source works in `f32`, and its rounding can make a side one pixel smaller or larger than the exact floor (a 7735×7278 image gives height 1927 where the floor is 1926; a longer side of 2213 can come out as 2047). When the longer side is at most 2048 both agree exactly, because the scale is 1.0.
- BoxBlur.FastBoxBlur: requires `radius <= MaxRadius` (8421504). Above that the `u32` sums could wrap. A negative radius is excluded because it gives `count == 0` and the division panics. The `i32` coordinate arithmetic is not modelled, so an image wider or taller than about 2^31 pixels is outside the model. The source calls the blur only with radius 10 on a 640×360 image.
- Artworks.IsImageName: lower-cases ASCII letters only. Rust's `to_lowercase` is Unicode-aware, but no other character lower-cases to one of the letters of the five accepted extensions, so the filter decides the same.
- Directory entries are file names. Their order is whatever the directory listing gives. Failed entries (skipped by `flatten`), `read_dir`, `exists`, `read_to_string` and serde parsing are replaced by the fields of `DirEntry`. An unreadable folder panics at startup, which is not modelled.
- Texture creation, all egui layout and painting, captions and `request_repaint_after` (main.rs:217-240, 302-386). These are presentation only.
- `main` and argument handling (main.rs:390-410).
- `process` is a fixed function of the artwork index. A file that fails to decode once and decodes later, or one that changes on disk between jobs, is not modelled; the handoff invariant's "displayed result is `process(current_index)`" relies on this.
- The clock is an abstract millisecond counter. `Instant`'s nanosecond resolution is not modelled.

## Findings

| source | as written | input that shows it | evidently intended | confidence | as-written member | corrected member |
|---|---|---|---|---|---|---|
| main.rs:255-273 | While the current artwork cannot be decoded, bootstrap re-runs every frame and calls `load_next_in_background`. Once the prefetched result is in the slot, poll clears `loading_next`, so every later frame spawns another job for the same next artwork. Several jobs run at once. A stale one can refill the slot after an advance, so the slideshow shows artwork `i` while `current_index` is `i+1`. | Three artworks, artwork 0 undecodable. The first prefetch (artwork 1) finishes after the t=0 frame and before the t=0.1 s frame. Frames at t=0.1, 0.2, 0.3 s then give two jobs in flight. The advance at t=10 s, then a stale job finishing, then the advance at t=20 s give index 2 while artwork 1 is shown. | At most one prefetch job in flight, and the displayed image is the one at `current_index`. Dispatching while a finished result still waits in the slot is skipped (the `SlotAware` guard). | medium, not executed | `Slideshow.AsWrittenShowsStaleImage` | `Slideshow.SlotAwareRunConsistent` |

`Slideshow.AsWrittenDuplicatesPrefetch` shows the two jobs in flight. `Slideshow.GuardsAgreeWhileDisplaying` shows that the corrected guard changes nothing once an image is displayed. `Slideshow.AsWrittenConsistentWhenFirstDecodes` proves that the code as written keeps the handoff invariant over every run in which the first artwork decodes. The defect therefore needs a first artwork that fails to decode.

=== FILE: arith.dfy ===
/** Small facts about integer multiplication and floor division used by the blur and resize proofs. */
module Arith {

  lemma MulMonotone(k: nat, a: int, b: int)
    requires a <= b
    ensures k * a <= k * b
  {
  }

  /** A quotient lies between the bounds its dividend was known to lie between, scaled. */
  lemma DivBetween(s: int, n: int, lo: int, hi: int)
    requires n > 0
    requires n * lo <= s <= n * hi
    ensures lo <= s / n <= hi
  {
    var q := s / n;
    assert s == q * n + s % n && 0 <= s % n < n;
    if q < lo {
      MulMonotone(n, q, lo - 1);
      assert false;
    }
    if q > hi {
      MulMonotone(n, hi + 1, q);
      assert false;
    }
  }

  lemma DivSelfMul(a: int, n: int)
    requires n > 0
    ensures (n * a) / n == a
  {
    DivBetween(n * a, n, a, a);
  }

  /** Extending a sum of k terms bounded below by m' by one more term bounded below by m <= m'. */
  lemma LowerStep(k: nat, m: int, m': int, s: int, v: int)
    requires k * m' <= s && m <= m' && m <= v
    ensures (k + 1) * m <= s + v
  {
    MulMonotone(k, m, m');
  }

  /** Extending a sum of k terms bounded above by M' by one more term bounded above by M >= M'. */
  lemma UpperStep(k: nat, M: int, M': int, s: int, v: int)
    requires s <= k * M' && M' <= M && v <= M
    ensures s + v <= (k + 1) * M
  {
    MulMonotone(k, M', M);
  }
}

=== FILE: artworks.dfy ===
/**
 * The folder scan of `ArtSlideshowApp::new` (main.rs:52-82): which directory
 * entries become artworks, and the metadata each one gets.  The filesystem
 * and the JSON parser are abstracted: an entry carries its file name, whether
 * its `.json` sidecar exists, and what reading-and-parsing that sidecar gave.
 */
module Artworks {
  import opened Wrappers

  datatype ArtworkMetadata = ArtworkMetadata(title: string, artist: string, year: string)

  datatype ArtworkInfo = ArtworkInfo(path: string, metadata: ArtworkMetadata)

  /**
   * A directory entry as the scan sees it.  `parsed` is None when reading the
   * sidecar or deserialising it failed (both collapse to `.ok()` = None).
   */
  datatype DirEntry = DirEntry(name: string, jsonExists: bool, parsed: Option<ArtworkMetadata>)

  const Unknown: string := "Unknown"

  /** The extensions the scan accepts, compared after lower-casing. */
  const ImageExtensions: set<string> := {"jpg", "jpeg", "png", "bmp", "gif"}

  /** Position of the last '.' in a file name, if there is one. */
  function LastDot(name: string): (r: Option<nat>)
    ensures r.Some? ==> r.value < |name| && name[r.value] == '.'
    ensures r.Some? ==> forall k :: r.value < k < |name| ==> name[k] != '.'
    ensures r.None? ==> forall k :: 0 <= k < |name| ==> name[k] != '.'
  {
    if |name| == 0 then None
    else if name[|name| - 1] == '.' then Some(|name| - 1)
    else LastDot(name[..|name| - 1])
  }

  /** A dot with no dot after it is the last dot. */
  lemma LastDotIs(name: string, i: nat)
    requires i < |name| && name[i] == '.'
    requires forall k :: i < k < |name| ==> name[k] != '.'
    ensures LastDot(name) == Some(i)
  {
  }

  /**
   * `Path::extension` of a file name: the text after the last dot, except
   * that a name without a dot, a name whose only dot is its first character
   * (".png") and ".." have none.
   */
  function Extension(name: string): (ext: Option<string>)
    ensures ext.Some? ==> |ext.value| + 2 <= |name| && name[|name| - |ext.value|..] == ext.value
    ensures ext.Some? ==> '.' !in ext.value && name[|name| - |ext.value| - 1] == '.'
    ensures ('.' !in name || name == "..") ==> ext.None?
    ensures name != ".." && (exists i :: 0 < i < |name| && name[i] == '.') ==> ext.Some?
  {
    if name == ".." then None
    else match LastDot(name)
      case None => None
      case Some(i) => if i == 0 then None else Some(name[i + 1..])
  }

  /** `Path::file_stem`: the name without its extension. */
  function FileStem(name: string): (stem: string)
    ensures stem <= name
    ensures |stem| > 0 <==> |name| > 0
  {
    if name == ".." then name
    else match LastDot(name)
      case None => name
      case Some(i) => if i == 0 then name else name[..i]
  }

  /** Stem and extension split a file name exactly at its last dot; no extension leaves the name whole. */
  lemma StemAndExtensionSplitName(name: string)
    ensures Extension(name).Some? ==>
      name == FileStem(name) + "." + Extension(name).value && |FileStem(name)| > 0
    ensures Extension(name).Some? ==> '.' !in Extension(name).value
    ensures Extension(name).None? ==> FileStem(name) == name
  {
    if name != ".." && LastDot(name).Some? && LastDot(name).value > 0 {
      var i := LastDot(name).value;
      assert name == name[..i] + "." + name[i + 1..];
    }
  }

  /** ASCII lower-casing of one character. */
  function LowerChar(c: char): char
  {
    if 'A' <= c <= 'Z' then (c as int + 32) as char else c
  }

  function Lower(s: string): string
  {
    seq(|s|, k requires 0 <= k < |s| => LowerChar(s[k]))
  }

  /** Lower-casing keeps the length and every dot, and a lower-cased string is already lower case. */
  lemma LowerFacts(s: string)
    ensures |Lower(s)| == |s| && Lower(Lower(s)) == Lower(s)
    ensures forall k :: 0 <= k < |s| ==> (Lower(s)[k] == '.' <==> s[k] == '.')
  {
  }

  /** Lower-casing a name moves none of its dots. */
  lemma {:induction false} LastDotOfLower(name: string)
    ensures LastDot(Lower(name)) == LastDot(name)
    decreases |name|
  {
    LowerFacts(name);
    if |name| > 0 {
      var init := name[..|name| - 1];
      assert Lower(name)[..|name| - 1] == Lower(init);
      LastDotOfLower(init);
    }
  }

  /** The extension test of main.rs:54-56: a real extension that lower-cases to one of the five. */
  predicate IsImageName(name: string)
    ensures IsImageName(name) ==> Extension(name).Some? && 3 <= |Extension(name).value| <= 4 && |name| >= 5
    ensures '.' !in name ==> !IsImageName(name)
  {
    Extension(name).Some? && Lower(Extension(name).value) in ImageExtensions
  }

  /** A stem and one of the five extensions, in any case, joined by a dot. */
  predicate IsImageSplit(name: string, stem: string, ext: string)
  {
    |stem| > 0 && '.' !in ext && name == stem + "." + ext && Lower(ext) in ImageExtensions
  }

  /** Every non-empty stem followed by an image extension is accepted, and that extension is the one found. */
  lemma AcceptsEveryImageName(stem: string, ext: string)
    requires IsImageSplit(stem + "." + ext, stem, ext)
    ensures Extension(stem + "." + ext) == Some(ext)
    ensures IsImageName(stem + "." + ext)
  {
    var name := stem + "." + ext;
    LowerFacts(ext);
    assert name[|stem|] == '.' && name[|stem| + 1..] == ext;
  }

  /** The filter accepts exactly the names made of a non-empty stem, a dot and an image extension. */
  lemma IsImageNameIffSplit(name: string)
    ensures IsImageName(name) <==> exists stem, ext :: IsImageSplit(name, stem, ext)
  {
    if IsImageName(name) {
      StemAndExtensionSplitName(name);
      assert IsImageSplit(name, FileStem(name), Extension(name).value);
    }
    if exists stem, ext :: IsImageSplit(name, stem, ext) {
      var stem, ext :| IsImageSplit(name, stem, ext);
      AcceptsEveryImageName(stem, ext);
    }
  }

  /** The filter ignores case: a name is accepted exactly when its lower-cased form is. */
  lemma IsImageNameIgnoresCase(name: string)
    ensures IsImageName(Lower(name)) <==> IsImageName(name)
  {
    LowerFacts(name);
    LastDotOfLower(name);
    assert Lower(name) == ".." <==> name == "..";
    match LastDot(name)
    case None =>
    case Some(i) =>
      assert Lower(name)[i + 1..] == Lower(name[i + 1..]);
      LowerFacts(name[i + 1..]);
  }

  /** The filter is case-insensitive and needs a real extension. */
  lemma ImageNameExamples()
    ensures IsImageName("Starry Night.JPG")
    ensures IsImageName("a.b.png")
    ensures !IsImageName(".png")
    ensures !IsImageName("photo.png.json")
    ensures !IsImageName("gif")
  {
    LastDotIs("Starry Night.JPG", 12);
    assert Lower("JPG") == "jpg";
    LastDotIs("a.b.png", 3);
    assert Lower("png") == "png";
    LastDotIs("photo.png.json", 9);
    assert Lower("json") == "json";
  }

  /**
   * The metadata choice of main.rs:59-77: a missing sidecar gives the file
   * stem as title; a sidecar that exists but cannot be read or parsed gives
   * "Unknown" in every field, title included; a parsed sidecar is used as is.
   */
  function LoadMetadata(jsonExists: bool, parsed: Option<ArtworkMetadata>, stem: string): (m: ArtworkMetadata)
    ensures !jsonExists ==> m.title == stem && m.artist == Unknown && m.year == Unknown
    ensures jsonExists && parsed.None? ==> m.title == Unknown && m.artist == Unknown && m.year == Unknown
    ensures jsonExists && parsed.Some? ==> m == parsed.value
  {
    if jsonExists then
      parsed.GetOr(ArtworkMetadata(Unknown, Unknown, Unknown))
    else
      ArtworkMetadata(stem, Unknown, Unknown)
  }

  /** The file name reaches the metadata only when there is no sidecar at all. */
  lemma StemUsedOnlyWithoutSidecar(parsed: Option<ArtworkMetadata>, stem1: string, stem2: string)
    ensures LoadMetadata(true, parsed, stem1) == LoadMetadata(true, parsed, stem2)
    ensures stem1 != stem2 ==> LoadMetadata(false, parsed, stem1) != LoadMetadata(false, parsed, stem2)
  {
  }

  /** The artwork the scan records for an accepted entry. */
  function EntryArtwork(e: DirEntry): (a: ArtworkInfo)
    ensures a.path == e.name
    ensures !e.jsonExists && Extension(e.name).Some? ==> e.name == a.metadata.title + "." + Extension(e.name).value
    ensures !e.jsonExists && Extension(e.name).None? ==> a.metadata.title == e.name
    ensures e.jsonExists && e.parsed.Some? ==> a.metadata == e.parsed.value
    ensures e.jsonExists && e.parsed.None? ==> a.metadata.title == Unknown
  {
    StemAndExtensionSplitName(e.name);
    ArtworkInfo(e.name, LoadMetadata(e.jsonExists, e.parsed, FileStem(e.name)))
  }

  /** Every entry's artwork, accepted or not, in directory order. */
  function EntryArtworks(entries: seq<DirEntry>): seq<ArtworkInfo>
  {
    seq(|entries|, j requires 0 <= j < |entries| => EntryArtwork(entries[j]))
  }

  /**
   * The scan loop (main.rs:52-82): entries in directory order, keeping those
   * with an image extension, each with its metadata.
   */
  function ScanFolder(entries: seq<DirEntry>): (artworks: seq<ArtworkInfo>)
    ensures |artworks| <= |entries|
  {
    if entries == [] then []
    else
      var rest := ScanFolder(entries[..|entries| - 1]);
      var e := entries[|entries| - 1];
      if IsImageName(e.name) then rest + [EntryArtwork(e)] else rest
  }

  /** Every artwork the scan keeps has an image extension. */
  lemma {:induction false} ScanFolderOnlyImages(entries: seq<DirEntry>)
    ensures forall k :: 0 <= k < |ScanFolder(entries)| ==> IsImageName(ScanFolder(entries)[k].path)
    decreases |entries|
  {
    if entries != [] {
      ScanFolderOnlyImages(entries[..|entries| - 1]);
    }
  }

  /** Every entry with an image extension is kept, with the metadata chosen for it. */
  lemma {:induction false} ScanFolderKeepsEveryImage(entries: seq<DirEntry>)
    ensures forall j :: 0 <= j < |entries| && IsImageName(entries[j].name) ==> EntryArtwork(entries[j]) in ScanFolder(entries)
    decreases |entries|
  {
    if entries != [] {
      var init := entries[..|entries| - 1];
      ScanFolderKeepsEveryImage(init);
      var kept := ScanFolder(entries);
      assert ScanFolder(init) <= kept;
      forall j | 0 <= j < |entries| && IsImageName(entries[j].name)
        ensures EntryArtwork(entries[j]) in kept
      {
        if j < |init| {
          assert entries[j] == init[j];
          assert EntryArtwork(init[j]) in ScanFolder(init);
        } else {
          assert kept[|kept| - 1] == EntryArtwork(entries[j]);
        }
      }
    }
  }

  /** Nothing is kept that is not the artwork of some entry. */
  lemma {:induction false} ScanFolderOnlyFromEntries(entries: seq<DirEntry>)
    ensures forall a :: a in ScanFolder(entries) ==> a in EntryArtworks(entries)
    decreases |entries|
  {
    if entries != [] {
      var init := entries[..|entries| - 1];
      ScanFolderOnlyFromEntries(init);
      forall a | a in EntryArtworks(init)
        ensures a in EntryArtworks(entries)
      {
        var j :| 0 <= j < |init| && EntryArtworks(init)[j] == a;
        assert EntryArtworks(entries)[j] == a;
      }
      assert EntryArtworks(entries)[|entries| - 1] == EntryArtwork(entries[|entries| - 1]);
    }
  }

  /** The scan keeps directory order: scanning a concatenation concatenates the scans. */
  lemma {:induction false} ScanFolderConcat(a: seq<DirEntry>, b: seq<DirEntry>)
    ensures ScanFolder(a + b) == ScanFolder(a) + ScanFolder(b)
    decreases |b|
  {
    if b == [] {
      assert a + b == a;
    } else {
      var b' := b[..|b| - 1];
      assert (a + b)[..|a + b| - 1] == a + b';
      assert b[..|b| - 1] == b';
      ScanFolderConcat(a, b');
    }
  }
}

=== FILE: box_blur.dfy ===
/**
 * The separable, edge-clamped box blur `fast_box_blur` (main.rs:141-196).
 *
 * A horizontal pass averages every pixel's R, G and B over the `2*radius+1`
 * pixels of its row centred on it, clamping sample positions to the row; a
 * vertical pass does the same along the columns of the horizontal result.
 * Alpha is copied and never written.  The functional definitions
 * (`HorizontalBlur`, `VerticalBlur`, `BoxBlur`) are the reference; the
 * methods are the nested loops of the source, proved equal to them.
 */
module BoxBlur {
  import Arith

  /** An 8-bit channel value: storing a value of this type is an `as u8` cast that never truncates. */
  type byte = x: int | 0 <= x < 256

  /** An unsigned 32-bit accumulator (`u32`). */
  type u32 = x: int | 0 <= x < 0x1_0000_0000

  /** The largest radius for which `255 * (2*radius+1)` still fits the u32 sums. */
  const MaxRadius: nat := 8421504

  /** One RGBA pixel. */
  datatype Pixel = Pixel(r: byte, g: byte, b: byte, a: byte)

  /** The channels the blur rewrites; alpha is deliberately not one of them. */
  datatype Channel = Red | Green | Blue

  function Chan(p: Pixel, c: Channel): byte
  {
    match c
    case Red => p.r
    case Green => p.g
    case Blue => p.b
  }

  /** An RGBA buffer; `rows[y][x]` is the pixel in column x of row y. */
  datatype Image = Image(width: nat, height: nat, rows: seq<seq<Pixel>>)

  predicate Valid(img: Image)
  {
    |img.rows| == img.height &&
    forall y :: 0 <= y < img.height ==> |img.rows[y]| == img.width
  }

  /** Two images have the same alpha at every position. */
  predicate SameAlpha(a: Image, b: Image)
    requires Valid(a) && Valid(b) && a.width == b.width && a.height == b.height
  {
    forall y, x :: 0 <= y < a.height && 0 <= x < a.width ==> b.rows[y][x].a == a.rows[y][x].a
  }

  function Dist(a: int, b: int): nat
  {
    if a <= b then b - a else a - b
  }

  /** `i32::clamp`: the point of [lo, hi] nearest to v. */
  function Clamp(v: int, lo: int, hi: int): (r: int)
    requires lo <= hi
    ensures lo <= r <= hi
    ensures lo <= v <= hi ==> r == v
    ensures forall k :: lo <= k <= hi ==> Dist(r, v) <= Dist(k, v)
  {
    if v < lo then lo else if hi < v then hi else v
  }

  /** The position sampled at offset d from position i of a line of length len. */
  function SampleIndex(i: int, d: int, len: nat): (k: nat)
    requires len > 0
    ensures k < len
  {
    Clamp(i + d, 0, len - 1)
  }

  /** Sum of channel c over the clamped samples at offsets lo .. hi-1 around position i. */
  function WindowSum(line: seq<Pixel>, i: int, c: Channel, lo: int, hi: int): nat
    requires |line| > 0
    decreases hi - lo
  {
    if hi <= lo then 0
    else WindowSum(line, i, c, lo, hi - 1) + Chan(line[SampleIndex(i, hi - 1, |line|)], c)
  }

  /** Smallest channel-c sample at offsets lo .. hi-1 around position i. */
  function WindowMin(line: seq<Pixel>, i: int, c: Channel, lo: int, hi: int): byte
    requires |line| > 0 && lo < hi
    decreases hi - lo
  {
    var v := Chan(line[SampleIndex(i, hi - 1, |line|)], c);
    if hi - 1 == lo then v
    else
      var m := WindowMin(line, i, c, lo, hi - 1);
      if v < m then v else m
  }

  /** Largest channel-c sample at offsets lo .. hi-1 around position i. */
  function WindowMax(line: seq<Pixel>, i: int, c: Channel, lo: int, hi: int): byte
    requires |line| > 0 && lo < hi
    decreases hi - lo
  {
    var v := Chan(line[SampleIndex(i, hi - 1, |line|)], c);
    if hi - 1 == lo then v
    else
      var m := WindowMax(line, i, c, lo, hi - 1);
      if v > m then v else m
  }

  /** The number of samples in a window: `count` at the end of the inner loops. */
  function WindowSize(radius: nat): nat
  {
    2 * radius + 1
  }

  /** A window sum lies between (window size) * min and (window size) * max. */
  lemma {:induction false} WindowSumBetween(line: seq<Pixel>, i: int, c: Channel, lo: int, hi: int)
    requires |line| > 0 && lo < hi
    ensures (hi - lo) * WindowMin(line, i, c, lo, hi) <= WindowSum(line, i, c, lo, hi)
    ensures WindowSum(line, i, c, lo, hi) <= (hi - lo) * WindowMax(line, i, c, lo, hi)
    decreases hi - lo
  {
    var v := Chan(line[SampleIndex(i, hi - 1, |line|)], c);
    if hi - 1 > lo {
      WindowSumBetween(line, i, c, lo, hi - 1);
      var k: nat := hi - 1 - lo;
      var s' := WindowSum(line, i, c, lo, hi - 1);
      assert WindowSum(line, i, c, lo, hi) == s' + v;
      Arith.LowerStep(k, WindowMin(line, i, c, lo, hi), WindowMin(line, i, c, lo, hi - 1), s', v);
      Arith.UpperStep(k, WindowMax(line, i, c, lo, hi), WindowMax(line, i, c, lo, hi - 1), s', v);
    }
  }

  /**
   * The averaged channel value written by a pass: `sum / count`, floored.
   * It lies between the smallest and largest sample of its window, so it is
   * a byte and the `as u8` cast of the source keeps it intact.
   */
  function Mean(line: seq<Pixel>, i: int, c: Channel, radius: nat): (m: byte)
    requires |line| > 0
    ensures WindowMin(line, i, c, -(radius as int), radius + 1) <= m <= WindowMax(line, i, c, -(radius as int), radius + 1)
  {
    WindowSumBetween(line, i, c, -(radius as int), radius + 1);
    Arith.DivBetween(WindowSum(line, i, c, -(radius as int), radius + 1), WindowSize(radius),
      WindowMin(line, i, c, -(radius as int), radius + 1), WindowMax(line, i, c, -(radius as int), radius + 1));
    WindowSum(line, i, c, -(radius as int), radius + 1) / WindowSize(radius)
  }

  /** The pixel a pass writes at position i of a line: averaged colour, original alpha. */
  function BlurAt(line: seq<Pixel>, i: int, radius: nat): Pixel
    requires 0 <= i < |line|
  {
    line[i].(r := Mean(line, i, Red, radius), g := Mean(line, i, Green, radius), b := Mean(line, i, Blue, radius))
  }

  /** One 1-D pass over a whole line. */
  function BlurLine(line: seq<Pixel>, radius: nat): seq<Pixel>
  {
    seq(|line|, i requires 0 <= i < |line| => BlurAt(line, i, radius))
  }

  /** Column x of an image, top to bottom. */
  function Column(img: Image, x: nat): seq<Pixel>
    requires Valid(img) && x < img.width
  {
    seq(img.height, y requires 0 <= y < img.height => img.rows[y][x])
  }

  /** The horizontal pass (main.rs:145-167): every row blurred along itself. */
  function HorizontalBlur(img: Image, radius: nat): (r: Image)
    requires Valid(img)
    ensures Valid(r) && r.width == img.width && r.height == img.height
    ensures SameAlpha(img, r)
  {
    Image(img.width, img.height, seq(img.height, y requires 0 <= y < img.height => BlurLine(img.rows[y], radius)))
  }

  /** The vertical pass (main.rs:171-193): every column blurred along itself. */
  function VerticalBlur(img: Image, radius: nat): (r: Image)
    requires Valid(img)
    ensures Valid(r) && r.width == img.width && r.height == img.height
    ensures SameAlpha(img, r)
  {
    Image(img.width, img.height,
      seq(img.height, y requires 0 <= y < img.height =>
        seq(img.width, x requires 0 <= x < img.width => BlurAt(Column(img, x), y, radius))))
  }

  /** `fast_box_blur`: the vertical pass applied to the horizontal pass's result. */
  function BoxBlur(img: Image, radius: nat): (r: Image)
    requires Valid(img)
    ensures Valid(r) && r.width == img.width && r.height == img.height
    ensures SameAlpha(img, r)
  {
    VerticalBlur(HorizontalBlur(img, radius), radius)
  }

  /** k successive applications of `fast_box_blur`, as in the loop at main.rs:119-121. */
  function BlurPasses(img: Image, radius: nat, k: nat): (r: Image)
    requires Valid(img)
    ensures Valid(r) && r.width == img.width && r.height == img.height
    ensures SameAlpha(img, r)
  {
    if k == 0 then img else BoxBlur(BlurPasses(img, radius, k - 1), radius)
  }

  // ---------------------------------------------------------------------
  // The loops of the source
  // ---------------------------------------------------------------------

  /**
   * The innermost loop of the horizontal pass (main.rs:148-160): the clamped
   * window sums of R, G and B in u32 accumulators, and the sample count.
   */
  method RowWindowSums(line: seq<Pixel>, x: nat, radius: nat) returns (r: u32, g: u32, b: u32, count: u32)
    requires x < |line| && radius <= MaxRadius
    ensures count == WindowSize(radius) && count > 0
    ensures r == WindowSum(line, x, Red, -(radius as int), radius + 1)
    ensures g == WindowSum(line, x, Green, -(radius as int), radius + 1)
    ensures b == WindowSum(line, x, Blue, -(radius as int), radius + 1)
  {
    r, g, b, count := 0, 0, 0, 0;
    var dx: int := -(radius as int);
    while dx <= radius
      invariant -(radius as int) <= dx <= radius + 1
      invariant count == dx + radius
      invariant r == WindowSum(line, x, Red, -(radius as int), dx) <= 255 * count
      invariant g == WindowSum(line, x, Green, -(radius as int), dx) <= 255 * count
      invariant b == WindowSum(line, x, Blue, -(radius as int), dx) <= 255 * count
    {
      var nx := Clamp(x + dx, 0, |line| - 1);
      var p := line[nx];
      r := r + p.r;
      g := g + p.g;
      b := b + p.b;
      count := count + 1;
      dx := dx + 1;
    }
  }

  /**
   * The innermost loop of the vertical pass (main.rs:174-186): the clamped
   * window sums down column x, read straight from the row-major buffer.
   */
  method ColumnWindowSums(img: Image, x: nat, y: nat, radius: nat) returns (r: u32, g: u32, b: u32, count: u32)
    requires Valid(img) && x < img.width && y < img.height && radius <= MaxRadius
    ensures count == WindowSize(radius) && count > 0
    ensures r == WindowSum(Column(img, x), y, Red, -(radius as int), radius + 1)
    ensures g == WindowSum(Column(img, x), y, Green, -(radius as int), radius + 1)
    ensures b == WindowSum(Column(img, x), y, Blue, -(radius as int), radius + 1)
  {
    ghost var col := Column(img, x);
    r, g, b, count := 0, 0, 0, 0;
    var dy: int := -(radius as int);
    while dy <= radius
      invariant -(radius as int) <= dy <= radius + 1
      invariant count == dy + radius
      invariant r == WindowSum(col, y, Red, -(radius as int), dy) <= 255 * count
      invariant g == WindowSum(col, y, Green, -(radius as int), dy) <= 255 * count
      invariant b == WindowSum(col, y, Blue, -(radius as int), dy) <= 255 * count
    {
      var ny := Clamp(y + dy, 0, img.height - 1);
      var p := img.rows[ny][x];
      assert p == col[ny];
      r := r + p.r;
      g := g + p.g;
      b := b + p.b;
      count := count + 1;
      dy := dy + 1;
    }
  }

  /** The body of the horizontal pass for pixel x of a row (main.rs:148-165). */
  method BlurRowPixel(line: seq<Pixel>, x: nat, radius: nat) returns (q: Pixel)
    requires x < |line| && radius <= MaxRadius
    ensures q == BlurAt(line, x, radius)
  {
    var r, g, b, count := RowWindowSums(line, x, radius);
    var mr: byte, mg: byte, mb: byte := Mean(line, x, Red, radius), Mean(line, x, Green, radius), Mean(line, x, Blue, radius);
    assert r / count == mr && g / count == mg && b / count == mb;
    var p := line[x];
    q := p.(r := r / count, g := g / count, b := b / count);
  }

  /** The body of the vertical pass for pixel (x, y) (main.rs:174-191). */
  method BlurColumnPixel(temp: Image, x: nat, y: nat, radius: nat) returns (q: Pixel)
    requires Valid(temp) && x < temp.width && y < temp.height && radius <= MaxRadius
    ensures q == BlurAt(Column(temp, x), y, radius)
  {
    var r, g, b, count := ColumnWindowSums(temp, x, y, radius);
    ghost var col := Column(temp, x);
    var mr: byte, mg: byte, mb: byte := Mean(col, y, Red, radius), Mean(col, y, Green, radius), Mean(col, y, Blue, radius);
    assert r / count == mr && g / count == mg && b / count == mb;
    var p := temp.rows[y][x];
    assert p == col[y];
    q := p.(r := r / count, g := g / count, b := b / count);
  }

  /** The horizontal pass as nested loops over rows and columns (main.rs:143-167). */
  method HorizontalPass(img: Image, radius: nat) returns (out: Image)
    requires Valid(img) && radius <= MaxRadius
    ensures out == HorizontalBlur(img, radius)
  {
    var rows: seq<seq<Pixel>> := [];
    var y := 0;
    while y < img.height
      invariant 0 <= y <= img.height
      invariant |rows| == y
      invariant forall j :: 0 <= j < y ==> rows[j] == BlurLine(img.rows[j], radius)
    {
      var line := img.rows[y];
      var row: seq<Pixel> := [];
      var x := 0;
      while x < img.width
        invariant 0 <= x <= img.width
        invariant |row| == x
        invariant forall i :: 0 <= i < x ==> row[i] == BlurAt(line, i, radius)
      {
        var q := BlurRowPixel(line, x, radius);
        row := row + [q];
        x := x + 1;
      }
      rows := rows + [row];
      y := y + 1;
    }
    out := Image(img.width, img.height, rows);
  }

  /** The vertical pass over the snapshot `temp` of the horizontal result (main.rs:169-193). */
  method VerticalPass(temp: Image, radius: nat) returns (out: Image)
    requires Valid(temp) && radius <= MaxRadius
    ensures out == VerticalBlur(temp, radius)
  {
    var rows: seq<seq<Pixel>> := [];
    var y := 0;
    while y < temp.height
      invariant 0 <= y <= temp.height
      invariant |rows| == y
      invariant forall j :: 0 <= j < y ==> |rows[j]| == temp.width
      invariant forall j, i :: 0 <= j < y && 0 <= i < temp.width ==> rows[j][i] == BlurAt(Column(temp, i), j, radius)
    {
      var row: seq<Pixel> := [];
      var x := 0;
      while x < temp.width
        invariant 0 <= x <= temp.width
        invariant |row| == x
        invariant forall i :: 0 <= i < x ==> row[i] == BlurAt(Column(temp, i), y, radius)
      {
        var q := BlurColumnPixel(temp, x, y, radius);
        row := row + [q];
        x := x + 1;
      }
      rows := rows + [row];
      y := y + 1;
    }
    ghost var reference := VerticalBlur(temp, radius);
    assert forall j | 0 <= j < temp.height :: rows[j] == reference.rows[j];
    out := Image(temp.width, temp.height, rows);
  }

  /**
   * `fast_box_blur(img, radius)`.  The result has the input's dimensions and
   * alpha, and is the reference separable blur.
   */
  method FastBoxBlur(img: Image, radius: nat) returns (out: Image)
    requires Valid(img) && radius <= MaxRadius
    ensures out == BoxBlur(img, radius)
    ensures Valid(out) && out.width == img.width && out.height == img.height
    ensures SameAlpha(img, out)
  {
    var temp := HorizontalPass(img, radius);
    out := VerticalPass(temp, radius);
  }

  // ---------------------------------------------------------------------
  // Uniform images are fixed points
  // ---------------------------------------------------------------------

  predicate Uniform(img: Image, p: Pixel)
    requires Valid(img)
  {
    forall y, x :: 0 <= y < img.height && 0 <= x < img.width ==> img.rows[y][x] == p
  }

  /** Over a line of one colour every window's minimum and maximum are that colour. */
  lemma {:induction false} ConstantWindow(line: seq<Pixel>, p: Pixel, i: int, c: Channel, lo: int, hi: int)
    requires |line| > 0 && lo < hi
    requires forall k :: 0 <= k < |line| ==> line[k] == p
    ensures WindowMin(line, i, c, lo, hi) == Chan(p, c) == WindowMax(line, i, c, lo, hi)
    decreases hi - lo
  {
    assert line[SampleIndex(i, hi - 1, |line|)] == p;
    if hi - 1 > lo {
      ConstantWindow(line, p, i, c, lo, hi - 1);
    }
  }

  /** Blurring a line of one colour gives the same line back, edges included. */
  lemma ConstantLineFixed(line: seq<Pixel>, p: Pixel, radius: nat)
    requires forall k :: 0 <= k < |line| ==> line[k] == p
    ensures BlurLine(line, radius) == line
  {
    forall i | 0 <= i < |line|
      ensures BlurLine(line, radius)[i] == line[i]
    {
      ConstantWindow(line, p, i, Red, -(radius as int), radius + 1);
      ConstantWindow(line, p, i, Green, -(radius as int), radius + 1);
      ConstantWindow(line, p, i, Blue, -(radius as int), radius + 1);
    }
  }

  /** One `fast_box_blur` leaves a uniform image exactly as it was. */
  lemma UniformFixedPoint(img: Image, p: Pixel, radius: nat)
    requires Valid(img) && Uniform(img, p)
    ensures BoxBlur(img, radius) == img
  {
    var h := HorizontalBlur(img, radius);
    forall y | 0 <= y < img.height
      ensures h.rows[y] == img.rows[y]
    {
      ConstantLineFixed(img.rows[y], p, radius);
    }
    assert h == img;
    var v := VerticalBlur(img, radius);
    forall y, x | 0 <= y < img.height && 0 <= x < img.width
      ensures v.rows[y][x] == img.rows[y][x]
    {
      ConstantLineFixed(Column(img, x), p, radius);
      assert BlurLine(Column(img, x), radius)[y] == BlurAt(Column(img, x), y, radius);
    }
    assert forall y | 0 <= y < img.height :: v.rows[y] == img.rows[y];
    assert v == img;
  }

  /** Any number of passes, the 3-pass loop included, leaves a uniform image unchanged. */
  lemma {:induction false} UniformFixedUnderPasses(img: Image, p: Pixel, radius: nat, k: nat)
    requires Valid(img) && Uniform(img, p)
    ensures BlurPasses(img, radius, k) == img
  {
    if k > 0 {
      UniformFixedUnderPasses(img, p, radius, k - 1);
      UniformFixedPoint(img, p, radius);
    }
  }
}

=== FILE: pipeline.dfy ===
/**
 * The integer parts of `process_image` (main.rs:96-139): the size the main
 * image is resized to, and the three-pass blur of the fixed-size backdrop.
 * Decoding, Lanczos resampling and the floating-point darken are library or
 * floating-point work and stay outside the model.
 */
module Pipeline {
  import Arith
  import opened BoxBlur

  /** Longest side the main image may have. */
  const MaxDimension: nat := 2048
  /** The backdrop canvas the source is resized to before blurring. */
  const BlurWidth: nat := 640
  const BlurHeight: nat := 360
  /** Radius passed to every `fast_box_blur` call. */
  const BlurRadius: nat := 10
  /** Number of `fast_box_blur` calls on the backdrop. */
  const BlurPassCount: nat := 3

  function Max(a: nat, b: nat): nat
  {
    if a < b then b else a
  }

  /**
   * The size `resize_exact` is asked for (main.rs:99-108): unchanged when the
   * longer side is within 2048, otherwise both sides scaled by
   * 2048 / longer side and truncated toward zero (not rounded).
   */
  function MainImageSize(w: nat, h: nat): (size: (nat, nat))
    ensures Max(size.0, size.1) <= MaxDimension
    ensures Max(w, h) <= MaxDimension ==> size == (w, h)
    ensures size.0 <= w && size.1 <= h
    ensures Max(w, h) > MaxDimension ==>
      && Max(size.0, size.1) == MaxDimension
      && size.0 * Max(w, h) <= w * MaxDimension < (size.0 + 1) * Max(w, h)
      && size.1 * Max(w, h) <= h * MaxDimension < (size.1 + 1) * Max(w, h)
  {
    var m := Max(w, h);
    if m <= MaxDimension then (w, h)
    else
      ScaledSide(w, m);
      ScaledSide(h, m);
      Arith.DivSelfMul(MaxDimension, m);
      (w * MaxDimension / m, h * MaxDimension / m)
  }

  /** A side scaled by 2048 / m (m the longer side, over 2048) stays within both bounds and truncates. */
  lemma ScaledSide(side: nat, m: nat)
    requires side <= m && m > MaxDimension
    ensures side * MaxDimension / m <= MaxDimension
    ensures side * MaxDimension / m <= side
    ensures (side * MaxDimension / m) * m <= side * MaxDimension < (side * MaxDimension / m + 1) * m
  {
    var q := side * MaxDimension / m;
    Arith.MulMonotone(MaxDimension, side, m);
    assert side * MaxDimension <= m * MaxDimension;
    Arith.DivBetween(side * MaxDimension, m, 0, MaxDimension);
    Arith.MulMonotone(side, MaxDimension, m);
    Arith.DivBetween(side * MaxDimension, m, 0, side);
  }

  /**
   * The backdrop blur loop (main.rs:118-121): `fast_box_blur` with radius 10,
   * three times, each pass reading the previous pass's output.
   */
  method BlurBackdrop(backdrop: Image) returns (blurred: Image)
    requires Valid(backdrop)
    ensures blurred == BlurPasses(backdrop, BlurRadius, BlurPassCount)
    ensures Valid(blurred) && blurred.width == backdrop.width && blurred.height == backdrop.height
    ensures SameAlpha(backdrop, blurred)
  {
    blurred := backdrop;
    var pass := 0;
    while pass < BlurPassCount
      invariant 0 <= pass <= BlurPassCount
      invariant blurred == BlurPasses(backdrop, BlurRadius, pass)
    {
      blurred := FastBoxBlur(blurred, BlurRadius);
      pass := pass + 1;
    }
  }

  /** A backdrop of one colour comes out of the blur loop unchanged. */
  lemma UniformBackdropUnchanged(backdrop: Image, p: Pixel)
    requires Valid(backdrop) && Uniform(backdrop, p)
    ensures BlurPasses(backdrop, BlurRadius, BlurPassCount) == backdrop
  {
    UniformFixedUnderPasses(backdrop, p, BlurRadius, BlurPassCount);
  }
}

=== FILE: slideshow.dfy ===
/**
 * The slideshow controller of `update` (main.rs:245-300) and the prefetch
 * dispatch `load_next_in_background` (main.rs:198-215), as a sequential
 * transition system.
 *
 * The background thread is replaced by an explicit event: dispatching a
 * prefetch records the job's artwork index in `jobs`, and a later
 * `Finish(k)` event completes job k, storing its result in the handoff slot
 * if processing succeeded.  `process(i)` stands for `process_image` on
 * artwork i (None when it cannot be decoded).  The clock is an abstract
 * millisecond counter passed to every tick.
 */
module Slideshow {
  import opened Wrappers

  /** `Duration::from_secs(10)` in clock units (milliseconds). */
  const SlideDuration: nat := 10000

  /**
   * The condition under which a prefetch is dispatched.  `AsWritten` is the
   * guard of main.rs:199; `SlotAware` additionally refuses while a finished
   * result still waits in the slot (see the finding in the README).
   */
  datatype DispatchGuard = AsWritten | SlotAware

  /**
   * The controller's state.  `n` is `artworks.len()`, `slot` the shared
   * `next_processed` cell, `jobs` the artwork indices of dispatched
   * background jobs that have not finished yet.
   */
  datatype State<P> = State(
    n: nat,
    current: nat,
    currentProcessed: Option<P>,
    slot: Option<P>,
    loadingNext: bool,
    lastChange: nat,
    slideDuration: nat,
    jobs: seq<nat>)

  /** `current_index` is a valid index whenever there are artworks. */
  predicate Valid<P>(s: State<P>)
  {
    s.n > 0 ==> s.current < s.n
  }

  /** The state built by `new` (main.rs:84-93) at time `now`. */
  function Init<P>(n: nat, now: nat): (s: State<P>)
    ensures Valid(s) && s.n == n && s.current == 0
    ensures s.currentProcessed.None? && s.slot.None? && !s.loadingNext && s.jobs == []
    ensures s.lastChange == now && s.slideDuration == SlideDuration
  {
    State(n, 0, None, None, false, now, SlideDuration, [])
  }

  /** The artwork after the current one, wrapping around. */
  function NextIndex<P>(s: State<P>): nat
    requires s.n > 0
  {
    (s.current + 1) % s.n
  }

  predicate Dispatches<P>(s: State<P>, guard: DispatchGuard)
  {
    !s.loadingNext && s.n > 1 && (guard.SlotAware? ==> s.slot.None?)
  }

  /**
   * `load_next_in_background` (main.rs:198-215): unless a load is already
   * marked or there is at most one artwork, mark loading and dispatch one
   * job for the next index.  Nothing else changes.
   */
  function LoadNextInBackground<P>(s: State<P>, guard: DispatchGuard): (r: State<P>)
    ensures r.n == s.n && r.current == s.current && r.currentProcessed == s.currentProcessed
    ensures r.slot == s.slot && r.lastChange == s.lastChange && r.slideDuration == s.slideDuration
    ensures !Dispatches(s, guard) ==> r == s
    ensures Dispatches(s, guard) ==> r.loadingNext && |r.jobs| == |s.jobs| + 1
    ensures Dispatches(s, guard) ==> r.jobs[..|s.jobs|] == s.jobs && r.jobs[|s.jobs|] == (s.current + 1) % s.n
  {
    if Dispatches(s, guard) then
      s.(loadingNext := true, jobs := s.jobs + [NextIndex(s)])
    else
      s
  }

  /**
   * Bootstrap (main.rs:254-265): with nothing displayed, process the current
   * artwork in place and prefetch.  Only the display, the loading mark and
   * the job list can change.
   */
  function Bootstrap<P>(s: State<P>, process: nat -> Option<P>, guard: DispatchGuard): (r: State<P>)
    requires Valid(s) && s.n > 0
    ensures r.n == s.n && r.current == s.current && r.slot == s.slot
    ensures r.lastChange == s.lastChange && r.slideDuration == s.slideDuration
    ensures s.currentProcessed.Some? ==> r == s
    ensures s.currentProcessed.None? ==> r.currentProcessed == process(s.current)
    ensures s.currentProcessed.None? && Dispatches(s, guard) ==> r.loadingNext && r.jobs == s.jobs + [NextIndex(s)]
    ensures s.currentProcessed.None? && !Dispatches(s, guard) ==> r.loadingNext == s.loadingNext && r.jobs == s.jobs
  {
    if s.currentProcessed.None? then
      LoadNextInBackground(s.(currentProcessed := process(s.current)), guard)
    else
      s
  }

  /** Poll (main.rs:267-273): the loading mark survives only while the slot is empty; nothing else changes. */
  function Poll<P>(s: State<P>): (r: State<P>)
    ensures r.(loadingNext := s.loadingNext) == s
    ensures r.loadingNext <==> s.loadingNext && s.slot.None?
  {
    if s.loadingNext && s.slot.Some? then s.(loadingNext := false) else s
  }

  /** `Instant::elapsed`, which saturates at zero. */
  function Elapsed(since: nat, now: nat): nat
  {
    if now >= since then now - since else 0
  }

  /** The slide time is up and a prefetched result is waiting. */
  predicate Ready<P>(s: State<P>, now: nat)
  {
    s.n > 0 && Elapsed(s.lastChange, now) >= s.slideDuration && s.slot.Some?
  }

  /** Job k finishes if it is running; a job that is not running changes nothing. */
  function FinishJob<P>(s: State<P>, k: nat, process: nat -> Option<P>): (r: State<P>)
    ensures r.(jobs := s.jobs, slot := s.slot) == s
    ensures |r.jobs| <= |s.jobs|
    ensures s.jobs == [] ==> r == s
  {
    if k < |s.jobs| then Complete(s, k, process) else s
  }

  /**
   * Jobs finishing one after another, each named by its position in the job
   * list at the moment it finishes.  Only the slot and the job list change,
   * and the list can only shrink.
   */
  function FinishJobs<P>(s: State<P>, ks: seq<nat>, process: nat -> Option<P>): (r: State<P>)
    ensures r.(jobs := s.jobs, slot := s.slot) == s
    ensures |r.jobs| <= |s.jobs|
    ensures s.jobs == [] ==> r == s
    decreases |ks|
  {
    if ks == [] then s else FinishJobs(FinishJob(s, ks[0], process), ks[1..], process)
  }

  /**
   * Advance (main.rs:275-300).  The source holds the slot's lock twice: once
   * to read the waiting result (main.rs:277-285), and once to empty the slot
   * (main.rs:293-295), with texture creation running unlocked in between.
   * `gap` lists the jobs that finish in that unlocked stretch, in order;
   * their results land in the slot and are erased by the second lock region.
   */
  function Advance<P>(s: State<P>, now: nat, gap: seq<nat>, process: nat -> Option<P>, guard: DispatchGuard): (r: State<P>)
    requires s.n > 0
    ensures r.n == s.n && r.slideDuration == s.slideDuration
    ensures Ready(s, now) ==>
      && r.current == (s.current + 1) % s.n && r.lastChange == now
      && r.currentProcessed == s.slot && r.slot.None?
      && r.loadingNext == (s.n > 1)
    ensures !Ready(s, now) ==> r == s
  {
    if Elapsed(s.lastChange, now) >= s.slideDuration && s.slot.Some? then
      ClearSlot(FinishJobs(TakeSlot(s, now), gap, process), guard)
    else
      s
  }

  /** The advance's first lock region (main.rs:277-285): move on and display the waiting result. */
  function TakeSlot<P>(s: State<P>, now: nat): State<P>
    requires s.n > 0
  {
    s.(current := (s.current + 1) % s.n, lastChange := now, currentProcessed := s.slot)
  }

  /** The advance's second lock region and what follows it (main.rs:293-298): empty the slot and prefetch. */
  function ClearSlot<P>(s: State<P>, guard: DispatchGuard): State<P>
  {
    LoadNextInBackground(s.(slot := None, loadingNext := false), guard)
  }

  /**
   * One call of `update` at time `now`: nothing when there are no artworks,
   * otherwise bootstrap, poll and advance, in that order; `gap` lists the
   * jobs finishing inside the advance (see `Advance`).
   *
   * The slide advances exactly when the time is up and the slot holds a
   * result; then the index moves on by one, the slot's result becomes the
   * displayed one, the slot is emptied, the timer restarts and (with more
   * than one artwork) a prefetch of the following artwork is the newest job.
   * Otherwise the index, the timer and the slot stay as they were.  Bootstrap
   * never touches the timer, and apart from the gap a tick never finishes a
   * job.
   */
  function Tick<P>(s: State<P>, now: nat, gap: seq<nat>, process: nat -> Option<P>, guard: DispatchGuard): (r: State<P>)
    requires Valid(s)
    ensures Valid(r) && r.n == s.n && r.slideDuration == s.slideDuration
    ensures s.n == 0 ==> r == s
    ensures gap == [] || !Ready(s, now) ==> s.jobs <= r.jobs
    ensures Ready(s, now) ==>
      && r.current == (s.current + 1) % s.n
      && r.lastChange == now
      && r.currentProcessed == s.slot
      && r.slot.None?
      && r.loadingNext == (s.n > 1)
      && (s.n > 1 ==> |r.jobs| > 0 && r.jobs[|r.jobs| - 1] == NextIndex(r))
      && (s.n > 1 && gap == [] ==> |r.jobs| > |s.jobs|)
    ensures !Ready(s, now) ==> r.current == s.current && r.lastChange == s.lastChange && r.slot == s.slot
    ensures !Ready(s, now) && s.currentProcessed.Some? ==> r.currentProcessed == s.currentProcessed
    ensures !Ready(s, now) && s.n > 0 && s.currentProcessed.None? ==> r.currentProcessed == process(s.current)
  {
    if s.n == 0 then s
    else Advance(Poll(Bootstrap(s, process, guard)), now, gap, process, guard)
  }

  /**
   * The background job at position k of `jobs` finishes (main.rs:209-214):
   * on success its result overwrites the slot, on failure the slot is left
   * alone.  The job leaves `jobs`; nothing else changes.
   */
  function Complete<P>(s: State<P>, k: nat, process: nat -> Option<P>): (r: State<P>)
    requires k < |s.jobs|
    ensures |r.jobs| + 1 == |s.jobs| && multiset(r.jobs) + multiset{s.jobs[k]} == multiset(s.jobs)
    ensures process(s.jobs[k]).Some? ==> r.slot == process(s.jobs[k])
    ensures process(s.jobs[k]).None? ==> r.slot == s.slot
    ensures r.(jobs := s.jobs, slot := s.slot) == s
  {
    assert s.jobs == s.jobs[..k] + [s.jobs[k]] + s.jobs[k + 1..];
    var job := s.jobs[k];
    s.(jobs := s.jobs[..k] + s.jobs[k + 1..],
       slot := if process(job).Some? then process(job) else s.slot)
  }

  /**
   * What can happen next: a frame is rendered at time `now`; a frame is
   * rendered at time `now` while the background jobs `finished` complete
   * inside its advance; or background job `job` finishes between frames.
   */
  datatype Event = TickAt(now: nat) | TickInterrupted(now: nat, finished: seq<nat>) | Finish(job: nat)

  /** One event; finishing a job that is not running changes nothing. */
  function Step<P>(s: State<P>, e: Event, process: nat -> Option<P>, guard: DispatchGuard): (r: State<P>)
    requires Valid(s)
    ensures Valid(r) && r.n == s.n
  {
    match e
    case TickAt(now) => Tick(s, now, [], process, guard)
    case TickInterrupted(now, ks) => Tick(s, now, ks, process, guard)
    case Finish(k) => FinishJob(s, k, process)
  }

  /** A run of events from state s. */
  function Run<P>(s: State<P>, events: seq<Event>, process: nat -> Option<P>, guard: DispatchGuard): (r: State<P>)
    requires Valid(s)
    ensures Valid(r) && r.n == s.n
    decreases |events|
  {
    if events == [] then s else Run(Step(s, events[0], process, guard), events[1..], process, guard)
  }

  // ---------------------------------------------------------------------
  // Properties of runs
  // ---------------------------------------------------------------------

  /** With a single artwork no prefetch is ever dispatched and the index stays 0. */
  lemma {:induction false} SingleArtworkStaysPut<P>(s: State<P>, events: seq<Event>, process: nat -> Option<P>, guard: DispatchGuard)
    requires s.n == 1 && s.current == 0 && s.jobs == []
    ensures Run(s, events, process, guard).current == 0
    ensures Run(s, events, process, guard).jobs == []
    decreases |events|
  {
    if events != [] {
      var s' := Step(s, events[0], process, guard);
      assert s'.jobs == [];
      SingleArtworkStaysPut(s', events[1..], process, guard);
    }
  }

  /**
   * The intended invariant of the handoff: at most one job in flight, and
   * only while loading is marked and the slot is empty, working on the next
   * artwork; a result in the slot is the next artwork's; the displayed
   * result is the current artwork's.
   */
  ghost predicate Consistent<P>(s: State<P>, process: nat -> Option<P>)
  {
    && Valid(s)
    && |s.jobs| <= 1
    && (|s.jobs| == 1 ==> s.loadingNext && s.slot.None? && s.n > 1 && s.jobs[0] == NextIndex(s))
    && (s.slot.Some? ==> s.n > 0 && s.slot == process(NextIndex(s)))
    && (s.currentProcessed.Some? ==> s.n > 0 && s.currentProcessed == process(s.current))
  }

  lemma InitConsistent<P>(n: nat, now: nat, process: nat -> Option<P>)
    ensures Consistent(Init<P>(n, now), process)
  {
  }

  lemma SlotAwareBootstrapConsistent<P>(s: State<P>, process: nat -> Option<P>)
    requires Consistent(s, process) && s.n > 0
    ensures Consistent(Bootstrap(s, process, SlotAware), process)
  {
  }

  lemma PollConsistent<P>(s: State<P>, process: nat -> Option<P>)
    requires Consistent(s, process)
    ensures Consistent(Poll(s), process)
  {
  }

  /** A job finishing inside the advance cannot happen here: a waiting result means no job is in flight. */
  lemma SlotAwareAdvanceConsistent<P>(s: State<P>, now: nat, gap: seq<nat>, process: nat -> Option<P>)
    requires Consistent(s, process) && s.n > 0
    ensures Consistent(Advance(s, now, gap, process, SlotAware), process)
  {
  }

  lemma CompleteConsistent<P>(s: State<P>, k: nat, process: nat -> Option<P>)
    requires Consistent(s, process) && k < |s.jobs|
    ensures Consistent(Complete(s, k, process), process)
  {
  }

  /** Every step under the slot-aware guard keeps the handoff consistent. */
  lemma SlotAwareStepConsistent<P>(s: State<P>, e: Event, process: nat -> Option<P>)
    requires Consistent(s, process)
    ensures Consistent(Step(s, e, process, SlotAware), process)
  {
    match e
    case TickAt(now) =>
      if s.n > 0 {
        SlotAwareBootstrapConsistent(s, process);
        var b := Bootstrap(s, process, SlotAware);
        PollConsistent(b, process);
        SlotAwareAdvanceConsistent(Poll(b), now, [], process);
      }
    case TickInterrupted(now, ks) =>
      if s.n > 0 {
        SlotAwareBootstrapConsistent(s, process);
        var b := Bootstrap(s, process, SlotAware);
        PollConsistent(b, process);
        SlotAwareAdvanceConsistent(Poll(b), now, ks, process);
      }
    case Finish(k) =>
      if k < |s.jobs| {
        CompleteConsistent(s, k, process);
      }
  }

  /** Under the slot-aware guard every run from a consistent state stays consistent. */
  lemma {:induction false} SlotAwareRunConsistent<P>(s: State<P>, events: seq<Event>, process: nat -> Option<P>)
    requires Consistent(s, process)
    ensures Consistent(Run(s, events, process, SlotAware), process)
    ensures |Run(s, events, process, SlotAware).jobs| <= 1
    decreases |events|
  {
    if events != [] {
      SlotAwareStepConsistent(s, events[0], process);
      SlotAwareRunConsistent(Step(s, events[0], process, SlotAware), events[1..], process);
    }
  }

  /**
   * Once an image is displayed the two guards behave identically, and an
   * image stays displayed: the as-written dispatch differs only while
   * bootstrap keeps failing.
   */
  lemma GuardsAgreeWhileDisplaying<P>(s: State<P>, e: Event, process: nat -> Option<P>)
    requires Valid(s) && s.currentProcessed.Some?
    ensures Step(s, e, process, AsWritten) == Step(s, e, process, SlotAware)
    ensures Step(s, e, process, AsWritten).currentProcessed.Some?
  {
  }

  /** From a consistent state that already displays an image, the code as written stays consistent. */
  lemma {:induction false} AsWrittenConsistentWhileDisplaying<P>(s: State<P>, events: seq<Event>, process: nat -> Option<P>)
    requires Consistent(s, process) && s.currentProcessed.Some?
    ensures Run(s, events, process, AsWritten) == Run(s, events, process, SlotAware)
    ensures Consistent(Run(s, events, process, AsWritten), process)
    decreases |events|
  {
    if events != [] {
      GuardsAgreeWhileDisplaying(s, events[0], process);
      SlotAwareStepConsistent(s, events[0], process);
      AsWrittenConsistentWhileDisplaying(Step(s, events[0], process, SlotAware), events[1..], process);
    }
    SlotAwareRunConsistent(s, events, process);
  }

  /**
   * Results delivered while the advance is between its two lock regions are
   * lost: however many jobs finish there, the frame ends exactly as an
   * uninterrupted frame would, except that those jobs have left the list.
   */
  lemma InterruptedAdvanceLosesResults<P>(s: State<P>, now: nat, gap: seq<nat>, process: nat -> Option<P>, guard: DispatchGuard)
    requires Valid(s) && Ready(s, now)
    ensures var plain := Tick(s, now, [], process, guard);
      var cut := Tick(s, now, gap, process, guard);
      && cut.(jobs := plain.jobs) == plain
      && |cut.jobs| <= |plain.jobs|
      && cut.slot.None?
  {
  }

  /** One job finishing inside the advance leaves the list at its position; nothing else differs. */
  lemma AdvanceLosesOneResult<P>(t: State<P>, now: nat, k: nat, process: nat -> Option<P>, guard: DispatchGuard)
    requires t.n > 0 && Ready(t, now) && k < |t.jobs|
    ensures var plain := Advance(t, now, [], process, guard);
      var cut := Advance(t, now, [k], process, guard);
      && cut.(jobs := plain.jobs) == plain
      && k < |plain.jobs| && plain.jobs[k] == t.jobs[k]
      && cut.jobs == plain.jobs[..k] + plain.jobs[k + 1..]
  {
    var read := TakeSlot(t, now);
    FinishOneJob(read, k, process);
    assert FinishJobs(read, [], process) == read;
    var removed := FinishJob(read, k, process);
    ClearSlotOnlyJobsDiffer(removed, read, guard);
    var extra := ClearSlot(read, guard).jobs[|read.jobs|..];
    RemoveBeforeAppend(t.jobs, extra, k);
  }

  /** Two states differing only in jobs and slot differ after the clear only in jobs, by the same dispatch. */
  lemma ClearSlotOnlyJobsDiffer<P>(x: State<P>, y: State<P>, guard: DispatchGuard)
    requires x.(jobs := y.jobs, slot := y.slot) == y
    ensures ClearSlot(x, guard).(jobs := ClearSlot(y, guard).jobs) == ClearSlot(y, guard)
    ensures |y.jobs| <= |ClearSlot(y, guard).jobs|
    ensures ClearSlot(x, guard).jobs == x.jobs + ClearSlot(y, guard).jobs[|y.jobs|..]
  {
  }

  /** Removing an element before an appended tail is removing it from the front part. */
  lemma RemoveBeforeAppend(a: seq<nat>, e: seq<nat>, k: nat)
    requires k < |a|
    ensures (a + e)[..k] + (a + e)[k + 1..] == a[..k] + a[k + 1..] + e
  {
    assert (a + e)[..k] == a[..k];
    assert (a + e)[k + 1..] == a[k + 1..] + e;
  }

  /** A gap of one job is that job finishing. */
  lemma FinishOneJob<P>(s: State<P>, k: nat, process: nat -> Option<P>)
    requires k < |s.jobs|
    ensures FinishJobs(s, [k], process) == FinishJob(s, k, process)
    ensures FinishJob(s, k, process).jobs == s.jobs[..k] + s.jobs[k + 1..]
  {
    assert [k][1..] == [];
  }

  /**
   * One job finishing inside the advance: it leaves the list and its result
   * is lost.  Had it finished just after the frame, its result would have
   * stayed in the slot.
   */
  lemma InterruptedAdvanceLosesResult<P>(s: State<P>, now: nat, k: nat, process: nat -> Option<P>, guard: DispatchGuard)
    requires Valid(s) && Ready(s, now) && k < |s.jobs|
    ensures var plain := Tick(s, now, [], process, guard);
      var cut := Tick(s, now, [k], process, guard);
      && cut.(jobs := plain.jobs) == plain
      && cut.jobs == plain.jobs[..k] + plain.jobs[k + 1..]
      && cut.slot.None?
      && (process(s.jobs[k]).Some? ==> FinishJob(plain, k, process).slot == process(s.jobs[k]))
  {
    var t := Poll(Bootstrap(s, process, guard));
    assert s.jobs <= t.jobs;
    AdvanceLosesOneResult(t, now, k, process, guard);
  }

  /**
   * When the first artwork decodes, the code as written shows it on the
   * first frame and the handoff is consistent from then on.
   */
  lemma AsWrittenFirstFrameConsistent<P>(n: nat, start: nat, now: nat, process: nat -> Option<P>)
    requires n > 0 && process(0).Some?
    ensures var s := Tick(Init<P>(n, start), now, [], process, AsWritten);
      Consistent(s, process) && s.currentProcessed.Some?
  {
  }

  /** So whenever the first artwork decodes, every run of the code as written keeps the handoff consistent. */
  lemma AsWrittenConsistentWhenFirstDecodes<P>(n: nat, start: nat, now: nat, events: seq<Event>, process: nat -> Option<P>)
    requires n > 0 && process(0).Some?
    ensures Consistent(Run(Init<P>(n, start), [TickAt(now)] + events, process, AsWritten), process)
  {
    var first := Tick(Init<P>(n, start), now, [], process, AsWritten);
    AsWrittenFirstFrameConsistent(n, start, now, process);
    assert ([TickAt(now)] + events)[1..] == events;
    AsWrittenConsistentWhileDisplaying(first, events, process);
  }

  /** Jobs finishing one after another, as `Finish` events. */
  function Finishes(ks: seq<nat>): seq<Event>
  {
    seq(|ks|, i requires 0 <= i < |ks| => Finish(ks[i]))
  }

  /** Jobs finishing inside an advance do exactly what the same completions do between frames. */
  lemma {:induction false} FinishJobsAreFinishEvents<P>(s: State<P>, ks: seq<nat>, process: nat -> Option<P>, guard: DispatchGuard)
    requires Valid(s)
    ensures FinishJobs(s, ks, process) == Run(s, Finishes(ks), process, guard)
    decreases |ks|
  {
    if ks != [] {
      assert Finishes(ks)[0] == Finish(ks[0]);
      assert Finishes(ks)[1..] == Finishes(ks[1..]);
      FinishJobsAreFinishEvents(FinishJob(s, ks[0], process), ks[1..], process, guard);
    }
  }

  /**
   * A job dispatched by a frame's own bootstrap can finish before that
   * frame's poll.  With an empty slot, that frame ends as two frames at the
   * same time with the completion between them.
   */
  lemma EarlyFinishIsExtraFrame<P>(s: State<P>, now: nat, process: nat -> Option<P>)
    requires Valid(s) && s.n > 0 && s.currentProcessed.None? && s.slot.None? && Dispatches(s, AsWritten)
    ensures Tick(FinishJob(Tick(s, now, [], process, AsWritten), |s.jobs|, process), now, [], process, AsWritten)
      == Advance(Poll(FinishJob(Bootstrap(s, process, AsWritten), |s.jobs|, process)), now, [], process, AsWritten)
  {
  }

  // ---------------------------------------------------------------------
  // Concrete runs
  // ---------------------------------------------------------------------

  /** Processing that fails for artwork 0 and yields i for every other artwork i. */
  function FirstUndecodable(i: nat): Option<nat>
  {
    if i == 0 then None else Some(i)
  }

  /** The state the code as written reaches in `AsWrittenDuplicatesPrefetch`: two jobs for artwork 1 in flight. */
  function DuplicatedState(): State<nat>
  {
    State(3, 0, None, Some(1), false, 0, SlideDuration, [1, 1])
  }

  /** After the first failed bootstrap, its prefetch finishing, and the next frame's poll. */
  function WaitingState(): State<nat>
  {
    State(3, 0, None, Some(1), false, 0, SlideDuration, [])
  }

  lemma AsWrittenReachesWaiting()
    ensures Step(Step(Step(Init<nat>(3, 0), TickAt(0), FirstUndecodable, AsWritten),
      Finish(0), FirstUndecodable, AsWritten), TickAt(100), FirstUndecodable, AsWritten) == WaitingState()
  {
    var s1 := Step(Init<nat>(3, 0), TickAt(0), FirstUndecodable, AsWritten);
    assert s1 == State(3, 0, None, None, true, 0, SlideDuration, [1]);
    var s2 := Step(s1, Finish(0), FirstUndecodable, AsWritten);
    assert s2 == State(3, 0, None, Some(1), true, 0, SlideDuration, []);
  }

  /**
   * The code as written, three artworks, the first undecodable.  Each frame
   * re-runs bootstrap, and because poll has already cleared the loading mark
   * for the waiting result, each frame dispatches another job for artwork 1:
   * two jobs are in flight after the third frame.
   */
  lemma AsWrittenDuplicatesPrefetch()
    ensures Step(Step(Step(Step(Step(Init<nat>(3, 0), TickAt(0), FirstUndecodable, AsWritten),
      Finish(0), FirstUndecodable, AsWritten), TickAt(100), FirstUndecodable, AsWritten),
      TickAt(200), FirstUndecodable, AsWritten), TickAt(300), FirstUndecodable, AsWritten) == DuplicatedState()
    ensures |DuplicatedState().jobs| == 2 && !Consistent(DuplicatedState(), FirstUndecodable)
  {
    AsWrittenReachesWaiting();
    var s4 := Step(WaitingState(), TickAt(200), FirstUndecodable, AsWritten);
    assert s4 == State(3, 0, None, Some(1), false, 0, SlideDuration, [1]);
  }

  /** After the t=10s advance and a stale job for artwork 1 finishing (`AsWrittenShowsStaleImage`). */
  function StaleSlotState(): State<nat>
  {
    State(3, 1, Some(1), Some(1), true, 10000, SlideDuration, [1, 1, 2])
  }

  lemma AsWrittenStaleJobRefillsSlot()
    ensures Step(Step(DuplicatedState(), TickAt(10000), FirstUndecodable, AsWritten),
      Finish(0), FirstUndecodable, AsWritten) == StaleSlotState()
  {
    var s6 := Step(DuplicatedState(), TickAt(10000), FirstUndecodable, AsWritten);
    assert s6 == State(3, 1, Some(1), None, true, 10000, SlideDuration, [1, 1, 1, 2]);
  }

  /**
   * Continuing that run: the slide advances to artwork 1 at t=10s, a stale
   * job for artwork 1 then refills the slot, and at t=20s the slideshow
   * advances to index 2 while displaying artwork 1 again.
   */
  lemma AsWrittenShowsStaleImage()
    ensures var s8 := Step(Step(Step(DuplicatedState(), TickAt(10000), FirstUndecodable, AsWritten),
      Finish(0), FirstUndecodable, AsWritten), TickAt(20000), FirstUndecodable, AsWritten);
      s8.current == 2 && s8.currentProcessed == Some(1) && !Consistent(s8, FirstUndecodable)
  {
    AsWrittenStaleJobRefillsSlot();
    var s8 := Step(StaleSlotState(), TickAt(20000), FirstUndecodable, AsWritten);
    assert s8 == State(3, 2, Some(1), None, true, 20000, SlideDuration, [1, 1, 2, 0]);
  }

  /**
   * From the stale-slot state, the t=20s frame is interrupted by the job for
   * artwork 2 finishing inside its advance: index 2 still shows artwork 1,
   * the slot ends empty and artwork 2's result is gone.
   */
  lemma AsWrittenInterruptedAdvanceDropsPrefetch()
    ensures var s := Step(StaleSlotState(), TickInterrupted(20000, [2]), FirstUndecodable, AsWritten);
      && StaleSlotState().jobs[2] == 2
      && s.current == 2 && s.currentProcessed == Some(1) && s.slot.None?
      && 2 !in s.jobs
  {
  }

  /**
   * Two jobs can finish in the same gap.  With three stale jobs for artwork 1
   * in flight and artwork 2 waiting, two of them finishing inside the t=20s
   * advance leave index 2 on artwork 2, the slot empty and one job still
   * running.
   */
  lemma AsWrittenTwoResultsLostInOneGap()
    ensures Step(State(3, 1, Some(1), Some(2), true, 10000, SlideDuration, [1, 1, 1]),
      TickInterrupted(20000, [0, 0]), FirstUndecodable, AsWritten)
      == State(3, 2, Some(2), None, true, 20000, SlideDuration, [1, 0])
  {
  }

  /** Processing that succeeds for every artwork. */
  function AllDecodable(i: nat): Option<nat>
  {
    Some(i)
  }

  /**
   * The three-artwork walk-through: bootstrap at t=0 shows artwork 0 and
   * prefetches 1; at t=5s nothing changes; at t=10s with the prefetch done
   * the slideshow moves to 1 and prefetches 2, but with the prefetch not yet
   * done it holds on 0 without restarting the timer.  A single artwork
   * never dispatches anything.
   */
  lemma ThreeArtworkScenario()
    ensures var s0 := Init<nat>(3, 0);
      var s1 := Tick(s0, 0, [], AllDecodable, AsWritten);
      var s2 := Tick(Complete(s1, 0, AllDecodable), 5000, [], AllDecodable, AsWritten);
      var s3 := Tick(s2, 10000, [], AllDecodable, AsWritten);
      var held := Tick(s1, 10000, [], AllDecodable, AsWritten);
      var single := Tick(Init<nat>(1, 0), 0, [], AllDecodable, AsWritten);
      && s1.current == 0 && s1.currentProcessed == Some(0) && s1.jobs == [1]
      && s2.current == 0 && s2.currentProcessed == Some(0)
      && s3.current == 1 && s3.currentProcessed == Some(1) && s3.jobs == [2] && s3.lastChange == 10000
      && held.current == 0 && held.lastChange == 0 && held.jobs == [1]
      && single.current == 0 && single.jobs == [] && !single.loadingNext
  {
    var s0 := Init<nat>(3, 0);
    var s1 := Tick(s0, 0, [], AllDecodable, AsWritten);
    assert s1 == State(3, 0, Some(0), None, true, 0, SlideDuration, [1]);
    var c := Complete(s1, 0, AllDecodable);
    assert c == State(3, 0, Some(0), Some(1), true, 0, SlideDuration, []);
    var s2 := Tick(c, 5000, [], AllDecodable, AsWritten);
    assert s2 == State(3, 0, Some(0), Some(1), false, 0, SlideDuration, []);
    var s3 := Tick(s2, 10000, [], AllDecodable, AsWritten);
    assert s3 == State(3, 1, Some(1), None, true, 10000, SlideDuration, [2]);
  }
}

=== FILE: wrappers.dfy ===
/** The optional value used wherever the program uses Rust's `Option`. */
module Wrappers {

  datatype Option<+T> = None | Some(value: T) {

    /** Returns the value in Some, or the given default for None (`unwrap_or`). */
    function GetOr(default: T): (r: T)
      ensures Some? ==> r == value
      ensures None? ==> r == default
    {
      match this
      case Some(v) => v
      case None => default
    }
  }
}
